=== FILE: README.md ===
# UTXOTxInput — a Dafny model of the transaction input

This project models the transaction input of the nkn ledger (`UTXOTxInput`,
`core/transaction/input.go`). An input is a spend reference: the 256-bit id of
an earlier transaction (`ReferTxID`) and the 16-bit position of the output being
spent (`ReferTxOutputIndex`). The model covers the input's three facets:

- **Binary codec** (`Serialize`, `Deserialize`, `ToArray`): a fixed 34-byte layout.
  The 32 id bytes come first, in natural order, then the index as a little-endian
  uint16. A writer is the byte sequence written so far, and `Serialize` appends to
  it. A reader is the byte sequence still unread. `Deserialize` returns the input
  and the unread rest, or the error of the first read that came up short.
- **JSON bridge** (`MarshalJson`, `UnmarshalJson`): works over the `UTXOTxInputInfo`
  record. The id is written as lower-case hex of the byte-reversed hash. Reading
  accepts either case, reverses the bytes back and requires exactly 32 of them.
  The index is copied verbatim.
- **Equality**: `Equal` is modelled as written. Because of the self-comparison on
  line 57 it never looks at the other input's index (see Findings).
  `EqualCorrected` is the evidently intended predicate. `Equals` is the structural
  predicate, and it treats a nil comparand as unequal.

Modules:

- `Wrappers`: `Result` for Go's `(value, error)` returns and `Option` for a possibly-nil pointer.
- `Common`: `byte`, `uint16`, and the 32-byte `Uint256` with its read and write.
  It also holds byte reversal (`ToArrayReverse`), `Uint256ParseFromBytes` and the error values.
- `Serialization`: `WriteUint16` and `ReadUint16`, two bytes little-endian.
- `Hex`: `BytesToHexString`, the decoder behind `HexStringToBytesReverse`, and their
  round-trip lemmas.
- `Transaction`: the input itself.

The helpers in `Common`, `Serialization` and `Hex` stand for code that is not part
of this model: the common package, the serialization package and Go's
`encoding/hex`. Each is written from the behaviour stated here:

- A `Uint256` is 32 raw bytes, and every 32 bytes form a valid hash.
- Reading a `Uint256` fails when fewer than 32 bytes remain.
- A uint16 is 2 bytes, low byte first, and reading it fails when fewer than 2 remain.
- Hex uses two digits per byte, high nibble first. Encoding writes lower case and
  decoding accepts both cases. Decoding reports the first non-digit in
  left-to-right pair order, and only after that a dangling odd digit. The text is
  a sequence of characters, so the non-digit reported is a character.
- `Uint256ParseFromBytes` fails unless it is given exactly 32 bytes.

Any 32 bytes form a valid hash, so decoding has no malformed-hash failure. A
JSON index that does not fit in 16 bits is rejected by the JSON text layer,
which is left out, so here the index is a `uint16` by type. `Equal` follows the
code and ignores the other index; `EqualCorrected` sits beside it (see Findings).

## Model

| member | source | states |
|---|---|---|
| `Transaction.Serialize` | core/transaction/input.go:22-33 | Appends exactly 34 bytes and keeps what the writer already held. The bytes are the 32 id bytes in natural order, then two bytes whose little-endian value is the index. |
| `Transaction.Deserialize` | core/transaction/input.go:35-50 | Succeeds iff at least 34 bytes remain. Below 32 bytes the id read fails; with 32 or 33 bytes the index read fails. On success, the input's encoding followed by the returned rest is exactly the input stream. |
| `Transaction.ToArray` | core/transaction/input.go:99-103 | The array is 34 bytes long: the id, then the index little-endian. |
| `Transaction.SerializeAppendsToArray` | core/transaction/input.go:99-103 | Serializing into any writer appends exactly the bytes `ToArray` returns. |
| `Transaction.DeserializeSerialize` | core/transaction/input.go:22-50 | Decoding an encoded input followed by any bytes returns that input and leaves the following bytes untouched, so exactly 34 bytes are consumed. |
| `Transaction.SerializeInjective` | core/transaction/input.go:22-50 | Two inputs with the same 34-byte encoding are equal, so the binary form loses nothing. |
| `Transaction.TruncatedEncodingFails` | core/transaction/input.go:35-50 | Every strict prefix of a valid encoding is rejected as a short read. Prefixes under 32 bytes fail at the id read; those of 32 or 33 bytes fail at the index read. |
| `Transaction.MarshalJson` | core/transaction/input.go:64-76 | The id text is 64 lower-case hex digits, and reading it back with byte reversal yields the id. The index is copied unchanged. |
| `Transaction.UnmarshalJson` | core/transaction/input.go:78-97 | Succeeds iff the id text is 64 hex digits. On success the text decodes to the reversed id, and the index is copied. Otherwise it fails with the first non-hex character of the text, with an odd-length error, or with the wrong byte count. |
| `Hex.HexDecodeFirstBad` | core/transaction/input.go:86-89 | Text that is not hex is rejected by the decoder with its first non-digit character, at any position and for any length. |
| `Transaction.JsonRoundTrip` | core/transaction/input.go:64-97 | Unmarshalling what `MarshalJson` produced gives back the original input. |
| `Transaction.JsonTextRoundTrip` | core/transaction/input.go:64-97 | JSON data with a 64-digit lower-case id is unmarshalled successfully, and marshalling the result gives back the same data. |
| `Transaction.JsonReversesBinaryId` | core/transaction/input.go:22-76 | The JSON id text decodes to the reverse of the first 32 bytes of the binary form. |
| `Transaction.Equal` | core/transaction/input.go:52-62 | True iff the two ids are equal, whatever the two indices are. |
| `Transaction.EqualIgnoresIndex` | core/transaction/input.go:57-59 | `Equal` holds between an input and a different input that has the same id and another index. |
| `Transaction.EqualCorrected` | core/transaction/input.go:52-62 | With the index check comparing both inputs, the predicate is true iff the inputs are equal. |
| `Transaction.Equals` | core/transaction/input.go:109-121 | False for a nil comparand. Otherwise true iff both the id and the index match. |
| `Transaction.EqualsIsEquivalence` | core/transaction/input.go:109-121 | `Equals` is reflexive, symmetric and transitive. |
| `Transaction.EqualsRefinesEqual` | core/transaction/input.go:52-121 | `Equals` agrees with the corrected `Equal` and implies `Equal` as written. |
| `Transaction.ZeroIdExample` | core/transaction/input.go:22-76 | An all-zero id with index 1 encodes as 32 zero bytes then `01 00`. Its JSON id is 64 zero digits and its JSON index is 1. |
| `Transaction.IndexByteOrderExample` | core/transaction/input.go:27-27 | Index 258 (0x0102) is written as the byte pair `02 01`. |

## Left out

- Writer failures: the writer is an append-only byte sequence, so `Serialize` cannot fail. The only writer `ToArray` uses, a `bytes.Buffer`, never fails.
- Kinds of short read: the error values the id and index readers return are not part of this model; every short read becomes one `ShortRead(wanted, available)` value.
- The JSON text layer (`json.Marshal` and `json.Unmarshal`, lines 71 and 82): only the `UTXOTxInputInfo` pair of hex string and index is modelled. Lexing, missing fields and an out-of-range index belong to a library that is not part of this model.
- `ToString` (lines 105-107): diagnostic formatting through `Uint256.ToString`, which is not part of this model. Its output is not parseable and is not used for equality.
- Pointer identity in `Equals` (line 110): the fast path for the same pointer is subsumed by structural equality on values. A nil receiver returns true against a nil comparand (line 110) and panics against a non-nil one (line 116); neither case is modelled.
- A nil argument to `Equal`: that would be a nil dereference in Go, so `Equal` takes a present input.
- Partial mutation in `Deserialize` (lines 37 and 44): Go overwrites the receiver before the error check. The model returns a `Result` instead.
- Transaction.UnmarshalJson: Go assigns the receiver's id on line 90 before checking the error, so an id text that decodes to other than 32 bytes still changes the receiver. The model returns only the `Failure` and does not describe the receiver's state afterwards.
- Hex.HexDecode: the text is a sequence of characters. For a non-ASCII character, Go's decoder reports the first byte of its UTF-8 encoding, while the model reports the whole character. The kind of failure is the same.
- `Uint256.CompareTo`: only its "zero iff the hashes are equal" meaning is used, on line 53. Its ordering is not modelled.

## Findings

| source | as written | input that shows it | evidently intended | confidence | as-written member | corrected member |
|---|---|---|---|---|---|---|
| core/transaction/input.go:57 | `ui.ReferTxOutputIndex != ui.ReferTxOutputIndex` compares the receiver's index with itself, so the check never fails | two inputs with the same id and indices 0 and 1: `Equal` returns true | compare `ui.ReferTxOutputIndex` with `ui2.ReferTxOutputIndex`, so equal means both fields match | high (not executed) | `Transaction.EqualIgnoresIndex` (about `Transaction.Equal`) | `Transaction.EqualCorrected` |

=== FILE: common.dfy ===
/** The fixed-width value types and byte helpers the transaction input relies on:
    Go's `byte` and `uint16`, the 256-bit hash `Uint256` (32 raw bytes), byte
    reversal, and the error values a decoder can report. */
module Common {
  import opened Wrappers

  newtype byte = x: int | 0 <= x < 256
  newtype uint16 = x: int | 0 <= x < 0x1_0000

  /** Width of a Uint256 in bytes. */
  const UINT256SIZE: nat := 32

  /** A 256-bit hash, held as its 32 bytes in natural (serialization) order. */
  type Uint256 = s: seq<byte> | |s| == UINT256SIZE witness seq(UINT256SIZE, i => 0)

  /** Everything that can go wrong while decoding a transaction input. */
  datatype Error =
    | ShortRead(wanted: nat, available: nat)  // the reader ran out before `wanted` bytes
    | InvalidByte(c: char)                    // a character that is not a hex digit
    | OddHexLength                            // a hex string with an odd number of digits
    | BadUint256Length(length: nat)           // bytes that are not exactly 32 long

  /** The bytes of `s` in reverse order. */
  function Reverse<T>(s: seq<T>): (r: seq<T>)
    ensures |r| == |s|
    ensures forall i :: 0 <= i < |s| ==> r[i] == s[|s| - 1 - i]
  {
    if |s| == 0 then [] else Reverse(s[1..]) + [s[0]]
  }

  /** Reversing twice gives back the original sequence. */
  lemma ReverseInvolutive<T>(s: seq<T>)
    ensures Reverse(Reverse(s)) == s
  {
  }

  /** Uint256.ToArrayReverse: the hash's bytes, last byte first. */
  function ToArrayReverse(u: Uint256): (r: seq<byte>)
    ensures |r| == UINT256SIZE
    ensures Reverse(r) == u
  {
    ReverseInvolutive(u);
    Reverse(u)
  }

  /** Uint256ParseFromBytes: accepts exactly 32 bytes and rejects every other length. */
  function Uint256ParseFromBytes(b: seq<byte>): (r: Result<Uint256, Error>)
    ensures r.Success? <==> |b| == UINT256SIZE
    ensures r.Success? ==> r.value == b
    ensures r.Failure? ==> r.error == BadUint256Length(|b|)
  {
    if |b| != UINT256SIZE then Failure(BadUint256Length(|b|)) else Success(b)
  }

  /** Uint256.Serialize: appends the 32 hash bytes, in natural order, to the writer's contents. */
  function WriteUint256(w: seq<byte>, u: Uint256): (w': seq<byte>)
    ensures |w'| == |w| + UINT256SIZE
    ensures w'[..|w|] == w && w'[|w|..] == u
  {
    w + u
  }

  /** Uint256.Deserialize: takes the next 32 bytes of the reader, or fails when fewer remain. */
  function ReadUint256(r: seq<byte>): (res: Result<(Uint256, seq<byte>), Error>)
    ensures res.Success? <==> |r| >= UINT256SIZE
    ensures res.Success? ==> res.value.0 + res.value.1 == r
    ensures res.Failure? ==> res.error == ShortRead(UINT256SIZE, |r|)
  {
    if |r| < UINT256SIZE then Failure(ShortRead(UINT256SIZE, |r|))
    else Success((r[..UINT256SIZE], r[UINT256SIZE..]))
  }

  /** Reading back what WriteUint256 wrote yields the hash and leaves the rest untouched. */
  lemma ReadWriteUint256(u: Uint256, rest: seq<byte>)
    ensures ReadUint256(WriteUint256([], u) + rest) == Success((u, rest))
  {
  }
}

=== FILE: hex.dfy ===
/** Hexadecimal text for byte strings, as the common package's BytesToHexString
    and HexStringToBytesReverse use it: two digits per byte, high nibble first;
    encoding writes lower-case digits, decoding accepts either case. */
module Hex {
  import opened Wrappers
  import opened Common

  predicate IsHexChar(c: char) {
    ('0' <= c <= '9') || ('a' <= c <= 'f') || ('A' <= c <= 'F')
  }

  predicate IsLowerHexChar(c: char) {
    ('0' <= c <= '9') || ('a' <= c <= 'f')
  }

  predicate IsHexString(s: string) {
    forall i :: 0 <= i < |s| ==> IsHexChar(s[i])
  }

  predicate IsLowerHexString(s: string) {
    forall i :: 0 <= i < |s| ==> IsLowerHexChar(s[i])
  }

  /** The value of one hex digit, in either case. */
  function HexVal(c: char): (v: nat)
    requires IsHexChar(c)
    ensures v < 16
  {
    if '0' <= c <= '9' then c as int - '0' as int
    else if 'a' <= c <= 'f' then c as int - 'a' as int + 10
    else c as int - 'A' as int + 10
  }

  /** The lower-case digit for a nibble; HexVal inverts it. */
  function HexDigit(n: nat): (c: char)
    requires n < 16
    ensures IsLowerHexChar(c)
    ensures HexVal(c) == n
  {
    if n < 10 then ('0' as int + n) as char else ('a' as int + n - 10) as char
  }

  /** A lower-case digit is the digit HexDigit writes for its own value. */
  lemma HexDigitOfVal(c: char)
    requires IsLowerHexChar(c)
    ensures HexDigit(HexVal(c)) == c
  {
  }

  /** BytesToHexString: two lower-case digits per byte, high nibble first. */
  function BytesToHexString(b: seq<byte>): (s: string)
    ensures |s| == 2 * |b|
    ensures IsLowerHexString(s)
  {
    if |b| == 0 then []
    else [HexDigit(b[0] as int / 16), HexDigit(b[0] as int % 16)] + BytesToHexString(b[1..])
  }

  /** Text is hex iff its first two characters and the rest after them are. */
  lemma HexStringAfterPair(s: string)
    requires |s| >= 2
    ensures IsHexString(s) <==> IsHexChar(s[0]) && IsHexChar(s[1]) && IsHexString(s[2..])
  {
    if IsHexChar(s[0]) && IsHexChar(s[1]) && IsHexString(s[2..]) {
      forall i | 2 <= i < |s| ensures IsHexChar(s[i]) {
        assert s[i] == s[2..][i - 2];
      }
    }
  }

  /** hex.DecodeString: pairs are decoded left to right; the first character that
      is not a hex digit is reported, and only then a dangling odd digit. */
  function HexDecode(s: string): (r: Result<seq<byte>, Error>)
    ensures r.Success? <==> |s| % 2 == 0 && IsHexString(s)
    ensures r.Success? ==> |r.value| == |s| / 2
    ensures !IsHexString(s) ==> r.Failure? && r.error.InvalidByte? && !IsHexChar(r.error.c)
    ensures IsHexString(s) && |s| % 2 == 1 ==> r == Failure(OddHexLength)
  {
    if |s| == 0 then Success([])
    else if |s| == 1 then
      if IsHexChar(s[0]) then Failure(OddHexLength) else Failure(InvalidByte(s[0]))
    else if !IsHexChar(s[0]) then Failure(InvalidByte(s[0]))
    else if !IsHexChar(s[1]) then Failure(InvalidByte(s[1]))
    else
      HexStringAfterPair(s);
      var rest :- HexDecode(s[2..]);
      Success([(HexVal(s[0]) * 16 + HexVal(s[1])) as byte] + rest)
  }

  /** Position `i` holds the first character of `s` that is not a hex digit. */
  predicate FirstNonHexAt(s: string, i: int) {
    0 <= i < |s| && IsHexString(s[..i]) && !IsHexChar(s[i])
  }

  /** Text that is not hex is rejected with its first non-digit character,
      wherever that character stands and whatever the text's length. */
  lemma {:induction false} HexDecodeFirstBad(s: string)
    requires !IsHexString(s)
    ensures exists i :: FirstNonHexAt(s, i) && HexDecode(s) == Failure(InvalidByte(s[i]))
  {
    if !IsHexChar(s[0]) {
      assert FirstNonHexAt(s, 0);
    } else {
      assert |s| >= 2;
      if !IsHexChar(s[1]) {
        assert FirstNonHexAt(s, 1);
      } else {
        var tail := s[2..];
        HexStringAfterPair(s);
        HexDecodeFirstBad(tail);
        var j :| FirstNonHexAt(tail, j) && HexDecode(tail) == Failure(InvalidByte(tail[j]));
        var prefix := s[..j + 2];
        assert IsHexString(prefix) by {
          forall k | 0 <= k < |prefix| ensures IsHexChar(prefix[k]) {
            if k >= 2 { assert prefix[k] == tail[..j][k - 2]; }
          }
        }
        assert FirstNonHexAt(s, j + 2);
      }
    }
  }

  /** Decoding what BytesToHexString wrote gives back the bytes. */
  lemma {:induction false} DecodeEncode(b: seq<byte>)
    ensures HexDecode(BytesToHexString(b)) == Success(b)
  {
    if |b| > 0 {
      var s := BytesToHexString(b);
      DecodeEncode(b[1..]);
      assert s[2..] == BytesToHexString(b[1..]);
      assert (HexVal(s[0]) * 16 + HexVal(s[1])) as byte == b[0];
      assert [b[0]] + b[1..] == b;
    }
  }

  /** Zero bytes are written as zero digits. */
  lemma {:induction false} ZeroBytesHex(n: nat)
    ensures BytesToHexString(seq(n, i => 0)) == seq(2 * n, i => '0')
  {
    if n > 0 {
      ZeroBytesHex(n - 1);
      assert seq(n, i => 0)[1..] == seq(n - 1, i => 0 as byte);
      assert seq(2 * n, i => '0') == ['0', '0'] + seq(2 * (n - 1), i => '0');
    }
  }

  /** The byte decoded from two lower-case digits is written back as those digits. */
  lemma DigitPairRoundTrip(hi: char, lo: char)
    requires IsLowerHexChar(hi) && IsLowerHexChar(lo)
    ensures var b := (HexVal(hi) * 16 + HexVal(lo)) as byte;
            HexDigit(b as int / 16) == hi && HexDigit(b as int % 16) == lo
  {
    HexDigitOfVal(hi);
    HexDigitOfVal(lo);
  }

  /** A suffix of lower-case hex text is lower-case hex text. */
  lemma LowerHexSuffix(s: string, k: nat)
    requires IsLowerHexString(s) && k <= |s|
    ensures IsLowerHexString(s[k..])
  {
    forall i | 0 <= i < |s| - k ensures IsLowerHexChar(s[k..][i]) {
      assert s[k..][i] == s[i + k];
    }
  }

  /** One step of BytesToHexString: a leading byte becomes its two digits. */
  lemma BytesToHexStringStep(b: byte, rest: seq<byte>)
    ensures BytesToHexString([b] + rest) == [HexDigit(b as int / 16), HexDigit(b as int % 16)] + BytesToHexString(rest)
  {
    assert ([b] + rest)[1..] == rest;
  }

  /** The byte decoded from two lower-case digits is encoded as those two digits. */
  lemma EncodeDigitPair(hi: char, lo: char, rest: seq<byte>)
    requires IsLowerHexChar(hi) && IsLowerHexChar(lo)
    ensures BytesToHexString([(HexVal(hi) * 16 + HexVal(lo)) as byte] + rest) == [hi, lo] + BytesToHexString(rest)
  {
    DigitPairRoundTrip(hi, lo);
    BytesToHexStringStep((HexVal(hi) * 16 + HexVal(lo)) as byte, rest);
  }

  /** Every even-length lower-case hex text is the encoding of some bytes. */
  lemma {:induction false} LowerHexIsEncoding(s: string) returns (b: seq<byte>)
    requires IsLowerHexString(s) && |s| % 2 == 0
    ensures BytesToHexString(b) == s
  {
    if |s| == 0 {
      b := [];
    } else {
      LowerHexSuffix(s, 2);
      var rest := LowerHexIsEncoding(s[2..]);
      b := [(HexVal(s[0]) * 16 + HexVal(s[1])) as byte] + rest;
      EncodeDigitPair(s[0], s[1], rest);
      assert [s[0], s[1]] + s[2..] == s;
    }
  }

  /** Encoding what HexDecode read from lower-case text gives back that text. */
  lemma EncodeDecode(s: string)
    requires IsLowerHexString(s) && |s| % 2 == 0
    ensures HexDecode(s).Success?
    ensures BytesToHexString(HexDecode(s).value) == s
  {
    var b := LowerHexIsEncoding(s);
    DecodeEncode(b);
  }

  /** HexStringToBytesReverse: decodes the text, then reverses the bytes. */
  function HexStringToBytesReverse(s: string): (r: Result<seq<byte>, Error>)
    ensures r.Success? <==> HexDecode(s).Success?
    ensures r.Success? ==> |r.value| == |s| / 2
    ensures r.Failure? ==> r.error == HexDecode(s).error
    ensures r.Success? ==> r.value == Reverse(HexDecode(s).value)
  {
    var b :- HexDecode(s);
    Success(Reverse(b))
  }
}

=== FILE: input.dfy ===
/** The transaction input (`UTXOTxInput`): a reference to one output of an
    earlier transaction, given by that transaction's 256-bit id and the output's
    16-bit position. It has a fixed 34-byte binary form, a JSON form whose id is
    the hex of the byte-reversed hash, and two equality predicates. */
module Transaction {
  import opened Wrappers
  import opened Common
  import opened Serialization
  import opened Hex

  datatype UTXOTxInput = UTXOTxInput(referTxID: Uint256, referTxOutputIndex: uint16)

  /** The intermediate record the JSON layer reads and writes. */
  datatype UTXOTxInputInfo = UTXOTxInputInfo(referTxID: string, referTxOutputIndex: uint16)

  /** Size of the binary form: the 32-byte id followed by the 2-byte index. */
  const INPUT_SIZE: nat := UINT256SIZE + 2

  // ---------------------------------------------------------------- binary codec

  /** Serialize: appends the id in natural byte order, then the index little-endian. */
  function Serialize(ui: UTXOTxInput, w: seq<byte>): (w': seq<byte>)
    ensures |w'| == |w| + INPUT_SIZE
    ensures w'[..|w|] == w
    ensures w'[|w|..|w| + UINT256SIZE] == ui.referTxID
    ensures LittleEndian16(w'[|w| + UINT256SIZE], w'[|w| + UINT256SIZE + 1]) == ui.referTxOutputIndex
  {
    var w1 := WriteUint256(w, ui.referTxID);
    var w2 := WriteUint16(w1, ui.referTxOutputIndex);
    assert w2[|w|..|w| + UINT256SIZE] == w1[|w|..];
    w2
  }

  /** Deserialize: reads the id, then the index; each read fails when the reader
      holds too few bytes, and the first failure is the one reported. On success
      it returns the input and the bytes it did not consume. */
  function Deserialize(r: seq<byte>): (res: Result<(UTXOTxInput, seq<byte>), Error>)
    ensures res.Success? <==> |r| >= INPUT_SIZE
    ensures |r| < UINT256SIZE ==> res == Failure(ShortRead(UINT256SIZE, |r|))
    ensures UINT256SIZE <= |r| < INPUT_SIZE ==> res == Failure(ShortRead(2, |r| - UINT256SIZE))
    ensures res.Success? ==> Serialize(res.value.0, []) + res.value.1 == r
  {
    var idAndRest :- ReadUint256(r);
    var indexAndRest :- ReadUint16(idAndRest.1);
    var ui := UTXOTxInput(idAndRest.0, indexAndRest.0);
    assert Serialize(ui, []) == WriteUint16(WriteUint256([], ui.referTxID), ui.referTxOutputIndex);
    Success((ui, indexAndRest.1))
  }

  /** ToArray: the 34 bytes Serialize writes into an empty buffer. */
  function ToArray(ui: UTXOTxInput): (b: seq<byte>)
    ensures |b| == INPUT_SIZE
    ensures b[..UINT256SIZE] == ui.referTxID
    ensures LittleEndian16(b[UINT256SIZE], b[UINT256SIZE + 1]) == ui.referTxOutputIndex
  {
    Serialize(ui, [])
  }

  /** Serializing into a writer appends exactly the bytes ToArray returns. */
  lemma SerializeAppendsToArray(ui: UTXOTxInput, w: seq<byte>)
    ensures Serialize(ui, w) == w + ToArray(ui)
  {
  }

  /** Decoding an encoded input followed by anything yields the input, consumes
      exactly its 34 bytes and leaves what follows untouched. */
  lemma DeserializeSerialize(ui: UTXOTxInput, rest: seq<byte>)
    ensures Deserialize(Serialize(ui, []) + rest) == Success((ui, rest))
  {
  }

  /** Two inputs with the same binary form are the same input. */
  lemma SerializeInjective(a: UTXOTxInput, b: UTXOTxInput)
    requires ToArray(a) == ToArray(b)
    ensures a == b
  {
  }

  /** Every strict prefix of an encoding is rejected as a short read, by the id
      read below 32 bytes and by the index read from 32 to 33 bytes. */
  lemma TruncatedEncodingFails(ui: UTXOTxInput, k: nat)
    requires k < INPUT_SIZE
    ensures Deserialize(ToArray(ui)[..k]).Failure?
    ensures Deserialize(ToArray(ui)[..k]).error ==
              if k < UINT256SIZE then ShortRead(UINT256SIZE, k) else ShortRead(2, k - UINT256SIZE)
  {
  }

  // ----------------------------------------------------------------- JSON bridge

  /** MarshalJson: the id as lower-case hex of its byte-reversed bytes, the index copied. */
  function MarshalJson(ui: UTXOTxInput): (info: UTXOTxInputInfo)
    ensures |info.referTxID| == 2 * UINT256SIZE
    ensures IsLowerHexString(info.referTxID)
    ensures HexStringToBytesReverse(info.referTxID) == Success(ui.referTxID)
    ensures info.referTxOutputIndex == ui.referTxOutputIndex
  {
    var reversed := ToArrayReverse(ui.referTxID);
    DecodeEncode(reversed);
    UTXOTxInputInfo(BytesToHexString(reversed), ui.referTxOutputIndex)
  }

  /** UnmarshalJson: decodes the hex id, reverses it back into natural order and
      requires exactly 32 bytes; the index is copied. */
  function UnmarshalJson(info: UTXOTxInputInfo): (r: Result<UTXOTxInput, Error>)
    ensures r.Success? <==> |info.referTxID| == 2 * UINT256SIZE && IsHexString(info.referTxID)
    ensures r.Success? ==> HexDecode(info.referTxID) == Success(Reverse(r.value.referTxID))
    ensures r.Success? ==> r.value.referTxOutputIndex == info.referTxOutputIndex
    ensures !IsHexString(info.referTxID) ==>
              exists i :: FirstNonHexAt(info.referTxID, i) && r == Failure(InvalidByte(info.referTxID[i]))
    ensures IsHexString(info.referTxID) && |info.referTxID| % 2 == 1 ==> r == Failure(OddHexLength)
    ensures (IsHexString(info.referTxID) && |info.referTxID| % 2 == 0 && |info.referTxID| != 2 * UINT256SIZE)
              ==> r == Failure(BadUint256Length(|info.referTxID| / 2))
  {
    assert !IsHexString(info.referTxID) ==>
             exists i :: FirstNonHexAt(info.referTxID, i) && HexDecode(info.referTxID) == Failure(InvalidByte(info.referTxID[i]))
    by {
      if !IsHexString(info.referTxID) { HexDecodeFirstBad(info.referTxID); }
    }
    var txid :- HexStringToBytesReverse(info.referTxID);
    var id :- Uint256ParseFromBytes(txid);
    ReverseInvolutive(HexDecode(info.referTxID).value);
    Success(UTXOTxInput(id, info.referTxOutputIndex))
  }

  /** Reading back what MarshalJson wrote yields the same input. */
  lemma JsonRoundTrip(ui: UTXOTxInput)
    ensures UnmarshalJson(MarshalJson(ui)) == Success(ui)
  {
  }

  /** Lower-case JSON text of the right length survives a read followed by a write. */
  lemma JsonTextRoundTrip(info: UTXOTxInputInfo)
    requires |info.referTxID| == 2 * UINT256SIZE && IsLowerHexString(info.referTxID)
    ensures UnmarshalJson(info).Success?
    ensures MarshalJson(UnmarshalJson(info).value) == info
  {
    EncodeDecode(info.referTxID);
    var d := HexDecode(info.referTxID).value;
    ReverseInvolutive(d);
    assert UnmarshalJson(info) == Success(UTXOTxInput(Reverse(d), info.referTxOutputIndex));
    var ui := UnmarshalJson(info).value;
    assert ToArrayReverse(ui.referTxID) == d;
  }

  /** The JSON hex decodes to the reverse of the first 32 bytes of the binary form. */
  lemma JsonReversesBinaryId(ui: UTXOTxInput)
    ensures HexDecode(MarshalJson(ui).referTxID) == Success(Reverse(ToArray(ui)[..UINT256SIZE]))
  {
    DecodeEncode(ToArrayReverse(ui.referTxID));
  }

  // -------------------------------------------------------------------- equality

  /** Equal, as written: after the ids are compared, the index check compares the
      receiver's index with itself, so the other input's index is never looked at. */
  function Equal(ui: UTXOTxInput, ui2: UTXOTxInput): (r: bool)
    ensures r <==> ui.referTxID == ui2.referTxID
  {
    if ui.referTxID != ui2.referTxID then false
    else if ui.referTxOutputIndex != ui.referTxOutputIndex then false
    else true
  }

  /** Equal accepts two inputs that spend different outputs of the same transaction. */
  lemma EqualIgnoresIndex(ui: UTXOTxInput, i: uint16)
    requires i != ui.referTxOutputIndex
    ensures Equal(ui, ui.(referTxOutputIndex := i))
    ensures ui != ui.(referTxOutputIndex := i)
  {
  }

  /** Equal with the index comparison it evidently intends: the receiver's index
      against the other input's index. */
  function EqualCorrected(ui: UTXOTxInput, ui2: UTXOTxInput): (r: bool)
    ensures r <==> ui == ui2
  {
    if ui.referTxID != ui2.referTxID then false
    else if ui.referTxOutputIndex != ui2.referTxOutputIndex then false
    else true
  }

  /** Equals: a nil comparand is unequal; otherwise both fields must match. */
  function Equals(ui: UTXOTxInput, other: Option<UTXOTxInput>): (r: bool)
    ensures r <==> other == Some(ui)
  {
    match other
    case None => false
    case Some(o) => ui.referTxID == o.referTxID && ui.referTxOutputIndex == o.referTxOutputIndex
  }

  /** Equals is reflexive, symmetric and transitive on present inputs. */
  lemma EqualsIsEquivalence(a: UTXOTxInput, b: UTXOTxInput, c: UTXOTxInput)
    ensures Equals(a, Some(a))
    ensures Equals(a, Some(b)) <==> Equals(b, Some(a))
    ensures Equals(a, Some(b)) && Equals(b, Some(c)) ==> Equals(a, Some(c))
  {
  }

  /** Equals is the corrected Equal on present inputs, and is stricter than Equal as written. */
  lemma EqualsRefinesEqual(a: UTXOTxInput, b: UTXOTxInput)
    ensures Equals(a, Some(b)) <==> EqualCorrected(a, b)
    ensures Equals(a, Some(b)) ==> Equal(a, b)
  {
  }

  // ----------------------------------------------------------- worked examples

  /** 32 zero bytes with index 1: zero id bytes then 01 00, and 64 zero digits. */
  lemma ZeroIdExample()
    ensures var ui := UTXOTxInput(seq(UINT256SIZE, i => 0), 1);
            && ToArray(ui) == seq(UINT256SIZE, i => 0) + [1, 0]
            && MarshalJson(ui) == UTXOTxInputInfo(seq(2 * UINT256SIZE, i => '0'), 1)
  {
    var zeros: Uint256 := seq(UINT256SIZE, i => 0);
    var ui := UTXOTxInput(zeros, 1);
    ZeroBytesHex(UINT256SIZE);
    assert ToArrayReverse(zeros) == zeros;
  }

  /** Index 258 (0x0102) is written as the byte pair 02 01. */
  lemma IndexByteOrderExample(id: Uint256)
    ensures ToArray(UTXOTxInput(id, 258))[UINT256SIZE..] == [2, 1]
  {
  }
}

=== FILE: serialization.dfy ===
/** The fixed-width integer codec of the serialization package, restricted to
    the 16-bit case the transaction input uses: two bytes, little-endian. */
module Serialization {
  import opened Wrappers
  import opened Common

  /** The number a little-endian byte pair denotes. */
  function LittleEndian16(lo: byte, hi: byte): (n: uint16)
  {
    (lo as int + 256 * hi as int) as uint16
  }

  /** WriteUint16: appends the low byte, then the high byte. */
  function WriteUint16(w: seq<byte>, n: uint16): (w': seq<byte>)
    ensures |w'| == |w| + 2
    ensures w'[..|w|] == w
    ensures LittleEndian16(w'[|w|], w'[|w| + 1]) == n
  {
    w + [(n as int % 256) as byte, (n as int / 256) as byte]
  }

  /** ReadUint16: reads a little-endian pair, or fails when fewer than two bytes remain. */
  function ReadUint16(r: seq<byte>): (res: Result<(uint16, seq<byte>), Error>)
    ensures res.Success? <==> |r| >= 2
    ensures res.Success? ==> WriteUint16([], res.value.0) + res.value.1 == r
    ensures res.Failure? ==> res.error == ShortRead(2, |r|)
  {
    if |r| < 2 then Failure(ShortRead(2, |r|))
    else Success((LittleEndian16(r[0], r[1]), r[2..]))
  }

  /** Reading back what WriteUint16 wrote yields the number and leaves the rest untouched. */
  lemma ReadWriteUint16(n: uint16, rest: seq<byte>)
    ensures ReadUint16(WriteUint16([], n) + rest) == Success((n, rest))
  {
  }
}

=== FILE: wrappers.dfy ===
/** Failure-compatible wrappers: Go's `(value, error)` returns become a Result,
    and a possibly-nil pointer argument becomes an Option. */
module Wrappers {

  /** A value that may be absent (a nil pointer in the Go program). */
  datatype Option<+T> = None | Some(value: T)

  /** Either a successful value or the error that stopped the computation. */
  datatype Result<+T, +E> = Success(value: T) | Failure(error: E) {

    predicate IsFailure() {
      Failure?
    }

    function PropagateFailure<U>(): Result<U, E>
      requires Failure?
    {
      Failure(error)
    }

    function Extract(): T
      requires Success?
    {
      value
    }
  }
}
